=== FILE: README.md ===
# Counter actions for OpenAction, modelled in Dafny

The plugin provides two counter actions for a control-surface device. Each
action instance holds a `CounterSettings { step, value }` record. A key press
adds `step` to `value`. A dial rotation adds `step * ticks`. The temporary
counter also resets `value` to zero every time the instance appears. Every
change goes through one primitive, `increment`. It stores a copy of the record
with the new value and, only if that store succeeds, sets the instance's title
to the new value in decimal.

The model is functional. The host is seen only through the ordered requests a
handler makes of it (`Instance.Effect`). The host's answers to those requests
are parameters (`Instance.Host`).

Modules, following the source:

- `Ints`: the `isize` (taken as 64-bit) and `i16` newtypes. Arithmetic on them
  is checked, as in a Rust debug build.
- `Decimal`: the title text `Show`, and an independent reader `Parse`.
- `Settings`: the record, its `Default` (step 1, value 0), and how a stored
  record with missing fields reads back under the container-level serde default.
- `Instance`: host requests, host replies and a handler's run.
- `Counter`: `increment` and the handler bodies both action types share. Each
  carries "no `isize` overflow" preconditions.
- `Actions`: both action types as one total dispatcher `Handle`, which returns
  `Panic` exactly where the source's arithmetic overflows. Handlers the source
  file takes from the `Action` trait's defaults (`key_down`, and `will_appear`
  on the persisted action) are a `Defaults` parameter: their bodies are not part
  of this model.
- `Session`: sequences of events on one instance, with the held record, the
  last title requested, and the title on display.

Handlers the source file does not override stay abstract:

- Both actions' `dial_up` call `key_down` (src/main.rs:45, src/main.rs:82),
  which is a trait default. The model proves only that `dial_up` equals
  `key_down`, and that it need not equal `key_up`.
- The persisted action does not override `will_appear`, so that handler stays
  abstract.

Overflow policy: Rust debug-build semantics. Any `isize` operation whose exact
result is out of range panics. No host request precedes the arithmetic, so a
panic asks nothing of the host.

## Model

| member | source | states |
|---|---|---|
| Settings.Load | src/main.rs:5-15 | a field missing from the stored record takes its default (step 1, value 0), a present field is kept, and an absent record reads as the default |
| Decimal.Show | src/main.rs:26 | `clone.value.to_string()`: the text is non-empty and starts with '-' exactly when the value is negative (its full meaning is given by `Decimal.ParseShow` and `Decimal.ShowCanonical`) |
| Settings.Save | src/main.rs:5-10 | the derived `Serialize` writes both fields, and what it writes loads back as the same record |
| Session.After | src/main.rs:24 | the record the host holds after one handler is unchanged when the handler panicked or the host refused the store; when the host accepted the store and the handler asked for one, it is a record the handler asked the host to store, and in every case it is the starting record or such a record (the host-storage assumption under "## Left out") |
| Session.Replay | src/main.rs:30-94 | delivering events one at a time, the record held at the end is the starting record or one some handler asked the host to store |
| Session.Shown | src/main.rs:25-27 | the title on display after one handler is unchanged when the handler panicked or the host refused the title request; when the host accepted the title request and the handler asked for a title, it is a title the handler asked the host to show, and in every case it is the old title or such a title (the host-display assumption under "## Left out") |
| Session.Displayed | src/main.rs:25-27 | over a session, the title on display differs from the starting one only if some step's title request could be accepted, and then it is a title some handler requested during the session |
| Settings.AbsentIsDefault | src/main.rs:11-15 | a fresh instance and an empty stored record both read as step 1, value 0 |
| Decimal.ParseShow | src/main.rs:26 | the title text of any integer reads back as that integer |
| Decimal.ShowCanonical | src/main.rs:26 | the title text is always a canonical numeral (no leading zero, no "-0"), and every canonical numeral is the title text of the number it denotes |
| Decimal.ShowInjective | src/main.rs:26 | distinct values give distinct title texts |
| Actions.SmallStepRotationOverflow | src/main.rs:48-56 | on either action type, when the step's magnitude is below 2^48, `step * ticks` never overflows for any `i16` tick count (src/main.rs:55, src/main.rs:92), so a rotation panics exactly when `value + step * ticks` does not fit in `isize` |
| Counter.Increment | src/main.rs:17-28 | the run first asks to store the record with only `value` changed, to `value + delta`; if the store fails it stops and returns that error, otherwise it asks to set the title to the new value's decimal text with no state and returns the title request's result |
| Counter.WriteThroughAgrees | src/main.rs:22-27 | after a write-through the stored step is unchanged, the title is requested exactly when the store succeeded, the title text reads back as the stored value, and the run succeeds exactly when both requests did |
| Counter.KeyUp | src/main.rs:36-38 | a key press writes `value + step` through to the host, given that sum fits in `isize` |
| Counter.DialRotate | src/main.rs:48-56 | a rotation writes `value + step * ticks` through to the host, given that the product and the sum both fit in `isize` |
| Counter.Reset | src/main.rs:65-71 | the temporary action's appearance writes 0 through to the host, given `value` is not `isize::MIN` |
| Counter.NeutralRotationWritesThrough | src/main.rs:48-56 | a rotation by zero ticks or with a zero step leaves the value unchanged but still stores the record and then sets the title, and `pressed` has no effect |
| Actions.Handle | src/main.rs:30-94 | for each event either action type defines, the handler panics exactly when `isize` arithmetic overflows (key press: `value + step`; rotation: `step * ticks` or `value + step * ticks`; temporary appearance: only `value == isize::MIN`), and otherwise writes the new value through |
| Actions.DialUpIsKeyDown | src/main.rs:40-46 | on either action type `dial_up` has exactly the effect of that type's `key_down`, and for some `key_down` it differs from `key_up` on every input (the temporary action's copy is at src/main.rs:77-83) |
| Actions.VariantsAgree | src/main.rs:73-93 | the temporary action handles key presses and rotations exactly as the persisted action does (src/main.rs:36-56) |
| Actions.TemporaryAppearResets | src/main.rs:65-71 | a temporary instance's appearance completes and stores value 0 with the step unchanged, for every prior value except `isize::MIN` (where `Handle` panics), and still sets the title when the store succeeds |
| Actions.IncrementsKeepStep | src/main.rs:22-23 | every handler that calls `increment` (key press, rotation, temporary appearance) stores a record whose step is the input's step |
| Session.IncrementKeepsTitle | src/main.rs:22-27 | one handler that calls `increment` keeps the last title requested equal to the held value whether the host accepts the store, refuses it, or the handler panics; the title on display follows when the host accepts the title request, and stays as it was when the host refuses it |
| Session.TitleTracksValue | src/main.rs:17-28 | across any sequence of events whose handlers call `increment`, with any host replies and any overflow panics, the last title requested is the decimal text of the value the host holds, and the step never changes |
| Session.DisplayTracksValue | src/main.rs:24-27 | across any sequence of events whose handlers call `increment` in which the host accepts every title request (stores may still be refused, handlers may panic), the title on display is the decimal text of the value the host holds |
| Session.RefusedTitleLeavesStale | src/main.rs:24-27 | when the host accepts the store of a changed value but refuses the title request, the handler returns that error and the title on display no longer names the held value, since nothing is rolled back |
| Session.RepeatedKeyUp | src/main.rs:36-38 | `n` successful key presses add `n * step` to the value, with no intermediate overflow when the final value fits, making two host requests per press |
| Session.ScenarioFirstPress | src/main.rs:36-38 | a default persisted instance pressed once holds 1 and requests the title "1" |
| Session.ScenarioRotateBack | src/main.rs:48-56 | step 5, value 10, rotated by -3 holds -5 and requests the title "-5" |
| Session.ScenarioAppearThenPress | src/main.rs:65-75 | a temporary instance at 7 with step 2 stores value 0 and requests the title "0" on appearance, then one press stores value 2 and requests the title "2" |
| Session.ScenarioZeroStep | src/main.rs:48-56 | with step 0 a rotation keeps the value 3 but still stores it and requests the title "3" |

## Left out

- `main` (src/main.rs:96-114): logger setup, action registration and running the plugin over process arguments. This is host bootstrap.
- The action UUID constants (src/main.rs:33, src/main.rs:62): they only identify the actions to the host.
- The openaction `Instance` transport (`set_settings`, `set_title`): these are foreign async calls. They appear only as requests in a run, and the host's answers are parameters.
- The `Action` trait's default handlers (`key_down` on both actions, `will_appear` on the persisted action): their bodies are not part of this model, so they are parameters. Nothing is proved about persisted appearance beyond that.
- The remaining `Action` trait events: the source file does not override them, so they are trait defaults like `key_down`.
- async and tokio scheduling, and overlapping events on one instance: this is concurrency the code does not control. `Session` delivers events one at a time.
- serde (de)serialisation: only the default-values fact is modelled (`Settings.Load`). The wire encoding is not.
- Release-build wrap-around: the model takes Rust's debug-build overflow panic. `isize` is assumed 64 bits wide.
- Rust's `isize::to_string` internals: the title text is the specification function `Decimal.Show`.
- Host replies: `Instance.Host` gives one answer per request kind. A handler that made two store requests would get the same answer to both. This does not matter for the handlers the source file defines, since each makes at most one of each request.
- What a panic does to the process: the model records only that the instance's record and title are untouched.
- The host's settings storage: `Session` assumes that between events the host holds the last record whose store request it accepted.
- Session.TitleTracksValue: does not cover sessions that contain `dial_up`, `key_down` or the persisted `will_appear`, because those run trait defaults whose bodies are not part of this model.
- The host's display: `Session` assumes the host displays a requested title exactly when it answers the title request with success. A refused request leaves the old title up.

=== FILE: actions.dfy ===
/**
 The two action types, `PersistedCounterAction` and `TemporaryCounterAction`,
 as one dispatcher over the events they handle. Handlers the file does not
 define come from the `Action` trait's defaults, whose bodies are not part of
 this model: they are supplied as the `Defaults` parameter, so nothing proved
 here depends on what they do.

 `Handle` is total: where the source's `isize` arithmetic would overflow it
 returns `Panic` (Rust's debug-build behaviour), and since the arithmetic
 precedes both host requests, a panic asks nothing of the host.
 */
module Actions {
  import opened Ints
  import opened Settings
  import opened Prelude
  import opened Decimal
  import opened Instance
  import Counter

  datatype Variant = Persisted | Temporary

  datatype Event =
    | KeyUp
    | KeyDown
    | DialUp
    | DialRotate(ticks: i16, pressed: bool)
    | WillAppear

  /** A handler either panics on overflow or completes with a run. */
  datatype Outcome = Panic | Done(run: Run)

  type Handler = (Variant, CounterSettings, Host) -> Outcome

  /** The trait's default `key_down` and `will_appear`, whatever they are. */
  datatype Defaults = Defaults(keyDown: Handler, willAppear: Handler)

  /** The events whose handler calls `increment`; `dial_up`, `key_down` and the
      persisted `will_appear` instead run a trait default. */
  predicate Increments(v: Variant, e: Event) {
    e == KeyUp || e.DialRotate? || (e == WillAppear && v == Temporary)
  }

  /** The event handlers of both action types. */
  function Handle(v: Variant, e: Event, d: Defaults, s: CounterSettings, host: Host): (r: Outcome)
    ensures e == KeyUp ==> (r.Panic? <==> !InIsize(s.value as int + s.step as int))
    ensures e.DialRotate? ==>
              (r.Panic? <==> !InIsize(s.step as int * e.ticks as int)
                             || !InIsize(s.value as int + s.step as int * e.ticks as int))
    ensures e == WillAppear && v == Temporary ==> (r.Panic? <==> s.value as int == ISIZE_MIN)
    ensures r.Done? && e == KeyUp ==>
              Counter.WritesThrough(s, s.value as int + s.step as int, host, r.run)
    ensures r.Done? && e.DialRotate? ==>
              Counter.WritesThrough(s, s.value as int + s.step as int * e.ticks as int, host, r.run)
    ensures r.Done? && e == WillAppear && v == Temporary ==>
              Counter.WritesThrough(s, 0, host, r.run)
  {
    match e
    case KeyUp =>
      if InIsize(s.value as int + s.step as int) then Done(Counter.KeyUp(s, host)) else Panic
    case KeyDown =>
      d.keyDown(v, s, host)
    case DialUp =>
      d.keyDown(v, s, host)
    case DialRotate(ticks, pressed) =>
      if !InIsize(s.step as int * ticks as int) then Panic
      else if !InIsize(s.value as int + s.step as int * ticks as int) then Panic
      else Done(Counter.DialRotate(s, ticks, pressed, host))
    case WillAppear =>
      if v == Persisted then d.willAppear(v, s, host)
      else if !InIsize(-(s.value as int)) then Panic
      else Done(Counter.Reset(s, host))
  }

  /** Trait defaults that ask nothing of the host and succeed. */
  const Silent: Defaults :=
    Defaults((v, s, host) => Done(Run([], Ok)), (v, s, host) => Done(Run([], Ok)))

  /**
   `dial_up` does exactly what `key_down` does on the same action type,
   whatever the trait default `key_down` is. It is not `key_up`: with
   defaults that do nothing, `dial_up` and `key_up` already differ on every
   input.
   */
  lemma DialUpIsKeyDown(v: Variant, d: Defaults, s: CounterSettings, host: Host)
    ensures Handle(v, DialUp, d, s, host) == Handle(v, KeyDown, d, s, host)
    ensures Handle(v, DialUp, Silent, s, host) != Handle(v, KeyUp, Silent, s, host)
  {
    var up := Handle(v, KeyUp, Silent, s, host);
    if up.Done? {
      assert 1 <= |up.run.effects|;
    }
  }

  /** The two action types handle key presses and rotations identically. */
  lemma VariantsAgree(e: Event, d: Defaults, s: CounterSettings, host: Host)
    requires e == KeyUp || e.DialRotate?
    ensures Handle(Persisted, e, d, s, host) == Handle(Temporary, e, d, s, host)
  {
  }

  /**
   On the temporary action type an appearance always lands on zero, whatever
   the previous value, keeping the step; it overflows only for the one value
   whose negation does not fit.
   */
  lemma TemporaryAppearResets(d: Defaults, s: CounterSettings, host: Host)
    requires s.value as int != ISIZE_MIN
    ensures var r := Handle(Temporary, WillAppear, d, s, host);
      && r.Done?
      && r.run.effects[0] == SetSettings(CounterSettings(s.step, 0))
      && (host.settingsReply.Ok? ==> |r.run.effects| == 2 && r.run.effects[1] == SetTitle(Some("0"), None))
  {
    assert Show(0) == "0";
  }

  /** Each action type keeps the step: every handler that calls `increment`
      stores a record with the input's step. */
  lemma IncrementsKeepStep(v: Variant, e: Event, d: Defaults, s: CounterSettings, host: Host)
    requires Increments(v, e)
    ensures var r := Handle(v, e, d, s, host);
      r.Done? ==> r.run.effects[0].SetSettings? && r.run.effects[0].settings.step == s.step
  {
  }

  /**
   With a step of magnitude below 2^48, `step * ticks` never overflows, so a
   rotation panics exactly when the new value itself does not fit.
   */
  lemma SmallStepRotationOverflow(v: Variant, ticks: i16, pressed: bool, d: Defaults, s: CounterSettings, host: Host)
    requires -0x1_0000_0000_0000 < s.step as int < 0x1_0000_0000_0000
    ensures Handle(v, DialRotate(ticks, pressed), d, s, host).Panic?
            <==> !InIsize(s.value as int + s.step as int * ticks as int)
  {
    SmallStepTimesTicksFits(s.step, ticks);
  }
}

=== FILE: counter.dfy ===
/**
 The counter's one mutation primitive, `increment`, and the handler bodies
 both action types share. Each handler computes a delta from the settings
 snapshot and hands it to `Increment`, which stores a copy of the record with
 the new value and only then shows the new value as the title.

 Every function here takes the arithmetic as checked: its `requires` is
 exactly "no `isize` operation in the handler overflows". `Actions.Handle`
 is the total version that panics where these preconditions fail.
 */
module Counter {
  import opened Prelude
  import opened Ints
  import opened Decimal
  import opened Settings
  import opened Instance

  /**
   `run` writes `newValue` through to the host: it first asks the host to
   store the input record with only its value replaced by `newValue`; when the
   host refuses, it stops there and returns that error; otherwise it asks for
   the title to show `newValue` in decimal, with no state change, and returns
   the host's answer to that request.
   */
  predicate WritesThrough(s: CounterSettings, newValue: int, host: Host, run: Run) {
    && InIsize(newValue)
    && 1 <= |run.effects|
    && run.effects[0] == SetSettings(CounterSettings(s.step, newValue as isize))
    && if host.settingsReply.Err? then
         |run.effects| == 1 && run.result == host.settingsReply
       else
         |run.effects| == 2 && run.effects[1] == SetTitle(Some(Show(newValue)), None) && run.result == host.titleReply
  }

  /** `increment(instance, settings, delta)`. */
  function Increment(s: CounterSettings, delta: isize, host: Host): (run: Run)
    requires InIsize(s.value as int + delta as int)
    ensures WritesThrough(s, s.value as int + delta as int, host, run)
  {
    var clone := s.(value := s.value + delta);
    if host.settingsReply.Err? then
      Run([SetSettings(clone)], host.settingsReply)
    else
      Run([SetSettings(clone), SetTitle(Some(Show(clone.value as int)), None)], host.titleReply)
  }

  /**
   What any write-through promises the host: the stored record keeps its
   step; the title is requested exactly when the store succeeded, and its
   text reads back as the stored value; the run succeeds exactly when both
   requests did.
   */
  lemma WriteThroughAgrees(s: CounterSettings, newValue: int, host: Host, run: Run)
    requires WritesThrough(s, newValue, host, run)
    ensures run.effects[0].settings.step == s.step
    ensures run.effects[0].settings.value as int == newValue
    ensures (exists i :: 0 <= i < |run.effects| && run.effects[i].SetTitle?) <==> host.settingsReply.Ok?
    ensures forall i :: 0 <= i < |run.effects| && run.effects[i].SetTitle? ==>
              run.effects[i].title.Some? && Parse(run.effects[i].title.value) == Some(run.effects[0].settings.value as int)
    ensures run.result.Ok? <==> host.settingsReply.Ok? && host.titleReply.Ok?
  {
    ParseShow(newValue);
    if host.settingsReply.Ok? {
      assert run.effects[1].SetTitle?;
    }
  }

  /** `key_up` on either action type: one step forward. */
  function KeyUp(s: CounterSettings, host: Host): (run: Run)
    requires InIsize(s.value as int + s.step as int)
    ensures WritesThrough(s, s.value as int + s.step as int, host, run)
  {
    Increment(s, s.step, host)
  }

  /** `dial_rotate` on either action type: `ticks` steps, signed; `pressed` is unused. */
  function DialRotate(s: CounterSettings, ticks: i16, pressed: bool, host: Host): (run: Run)
    requires InIsize(s.step as int * ticks as int)
    requires InIsize(s.value as int + s.step as int * ticks as int)
    ensures WritesThrough(s, s.value as int + s.step as int * ticks as int, host, run)
  {
    Increment(s, s.step * (ticks as isize), host)
  }

  /** `will_appear` on the temporary action type: a reset to zero. */
  function Reset(s: CounterSettings, host: Host): (run: Run)
    requires s.value as int != ISIZE_MIN
    ensures WritesThrough(s, 0, host, run)
  {
    Increment(s, -s.value, host)
  }

  /**
   A rotation by zero ticks, or any rotation with a zero step, leaves the
   value as it was but still stores the record and, when that succeeds, still
   sets the title; whether the dial was pressed makes no difference.
   */
  lemma NeutralRotationWritesThrough(s: CounterSettings, ticks: i16, pressed: bool, host: Host)
    requires ticks == 0 || s.step == 0
    ensures var run := DialRotate(s, ticks, pressed, host);
      && WritesThrough(s, s.value as int, host, run)
      && run.effects[0] == SetSettings(s)
      && (host.settingsReply.Ok? ==> |run.effects| == 2)
      && run == DialRotate(s, ticks, !pressed, host)
  {
    assert s.step as int * ticks as int == 0;
  }
}

=== FILE: decimal.dfy ===
/**
 The decimal text of an integer, as Rust's `to_string` renders a signed
 integer: an optional '-' followed by the digits of the magnitude, with no
 leading zeros. `Show` produces that text; `Parse` is an independent reader
 used to state what the text means.
 */
module Decimal {
  import opened Prelude

  predicate IsDigit(c: char) {
    '0' <= c <= '9'
  }

  predicate AllDigits(s: string) {
    forall i :: 0 <= i < |s| ==> IsDigit(s[i])
  }

  function DigitChar(d: nat): (c: char)
    requires d < 10
    ensures IsDigit(c)
  {
    ('0' as int + d) as char
  }

  function DigitValue(c: char): (d: nat)
    requires IsDigit(c)
    ensures d < 10 && DigitChar(d) == c
  {
    c as int - '0' as int
  }

  /** The digits of a natural number, most significant first. */
  function NatToDigits(n: nat): (r: string)
    ensures 1 <= |r| && AllDigits(r)
    ensures r[0] == '0' <==> n == 0
    decreases n
  {
    if n < 10 then [DigitChar(n)] else NatToDigits(n / 10) + [DigitChar(n % 10)]
  }

  /** The natural number a string of digits denotes. */
  function DigitsToNat(s: string): nat
    requires AllDigits(s)
    decreases |s|
  {
    if s == [] then 0 else DigitsToNat(s[..|s| - 1]) * 10 + DigitValue(s[|s| - 1])
  }

  /** The decimal text of `x`. */
  function Show(x: int): (r: string)
    ensures 1 <= |r|
    ensures r[0] == '-' <==> x < 0
  {
    if x < 0 then "-" + NatToDigits(-x) else NatToDigits(x)
  }

  /** Reads an optionally negative decimal numeral; `None` when `s` is not one. */
  function Parse(s: string): Option<int> {
    if 2 <= |s| && s[0] == '-' && AllDigits(s[1..]) then Some(-(DigitsToNat(s[1..]) as int))
    else if 1 <= |s| && AllDigits(s) then Some(DigitsToNat(s))
    else None
  }

  /** A numeral in the form `Show` writes: no leading zero, no "-0". */
  predicate Canonical(s: string) {
    if 2 <= |s| && s[0] == '-' then
      AllDigits(s[1..]) && s[1] != '0'
    else
      1 <= |s| && AllDigits(s) && (s[0] == '0' ==> |s| == 1)
  }

  lemma {:induction false} DigitsRoundTrip(n: nat)
    ensures DigitsToNat(NatToDigits(n)) == n
    decreases n
  {
    if n >= 10 {
      var r := NatToDigits(n);
      assert r[..|r| - 1] == NatToDigits(n / 10);
      DigitsRoundTrip(n / 10);
    }
  }

  /** A digit string with a non-zero leading digit denotes at least 1. */
  lemma {:induction false} LeadingDigitPositive(s: string)
    requires 1 <= |s| && AllDigits(s) && s[0] != '0'
    ensures DigitsToNat(s) >= 1
    decreases |s|
  {
    if |s| > 1 {
      LeadingDigitPositive(s[..|s| - 1]);
    } else {
      assert DigitValue(s[0]) != 0;
    }
  }

  lemma {:induction false} NatRoundTrip(s: string)
    requires 1 <= |s| && AllDigits(s) && (s[0] == '0' ==> |s| == 1)
    ensures NatToDigits(DigitsToNat(s)) == s
    decreases |s|
  {
    var n := DigitsToNat(s);
    if |s| > 1 {
      var p := s[..|s| - 1];
      LeadingDigitPositive(p);
      NatRoundTrip(p);
      var d := DigitValue(s[|s| - 1]);
      assert n == DigitsToNat(p) * 10 + d;
      assert n / 10 == DigitsToNat(p) && n % 10 == d;
      assert s == p + [s[|s| - 1]];
    }
  }

  /** Reading back the text of any integer gives the integer. */
  lemma ParseShow(x: int)
    ensures Parse(Show(x)) == Some(x)
  {
    if x < 0 {
      var r := Show(x);
      assert r[1..] == NatToDigits(-x);
      DigitsRoundTrip(-x);
    } else {
      DigitsRoundTrip(x);
    }
  }

  /** `Show` writes exactly the canonical numerals: every one it writes is
      canonical, and every canonical numeral is the text of what it denotes. */
  lemma ShowCanonical(x: int, s: string)
    ensures Canonical(Show(x))
    ensures Canonical(s) ==> Parse(s).Some? && Show(Parse(s).value) == s
  {
    var r := Show(x);
    if x < 0 {
      assert r[1..] == NatToDigits(-x);
    }
    if Canonical(s) {
      if 2 <= |s| && s[0] == '-' {
        LeadingDigitPositive(s[1..]);
        NatRoundTrip(s[1..]);
        assert s == "-" + s[1..];
      } else {
        NatRoundTrip(s);
      }
    }
  }

  /** Distinct integers have distinct texts. */
  lemma ShowInjective(x: int, y: int)
    ensures Show(x) == Show(y) ==> x == y
  {
    ParseShow(x);
    ParseShow(y);
  }
}

=== FILE: instance.dfy ===
/**
 The host side of one action instance, seen only through the effects a
 handler asks of it. A handler's run is the ordered list of requests it made
 (store these settings; show this title) and the result it returned. The
 host's answers to the two requests are parameters: nothing here performs I/O.
 */
module Instance {
  import opened Prelude
  import opened Settings

  /** The answer to one host request: success, or an error the host reports. */
  datatype Reply = Ok | Err(message: string)

  /** One request made of the host. */
  datatype Effect =
    | SetSettings(settings: CounterSettings)
    | SetTitle(title: Option<string>, state: Option<nat>)

  /** How the host answers a store request and a title request. */
  datatype Host = Host(settingsReply: Reply, titleReply: Reply)

  /** The requests a handler made, in order, and the result it returned. */
  datatype Run = Run(effects: seq<Effect>, result: Reply)
}

=== FILE: ints.dfy ===
/**
 The fixed-width integers the counter computes with. `isize` is taken to be
 64 bits wide (the usual desktop target); `i16` is the width of a dial's tick
 count. Arithmetic on these newtypes is checked by Dafny, which models Rust's
 debug-build behaviour: an operation whose exact result leaves the range panics.
 */
module Ints {

  const ISIZE_MIN: int := -0x8000_0000_0000_0000
  const ISIZE_MAX: int := 0x7FFF_FFFF_FFFF_FFFF

  newtype isize = x: int | ISIZE_MIN <= x <= ISIZE_MAX
  newtype i16 = x: int | -0x8000 <= x <= 0x7FFF

  /** True when the exact integer `x` is representable as an `isize`. */
  predicate InIsize(x: int) {
    ISIZE_MIN <= x <= ISIZE_MAX
  }

  /**
   A dial step whose magnitude is below 2^48 can be multiplied by any `i16`
   tick count without leaving the `isize` range: |step * ticks| is at most
   (2^48 - 1) * 2^15 < 2^63 - 1.
   */
  lemma SmallStepTimesTicksFits(step: isize, ticks: i16)
    requires -0x1_0000_0000_0000 < step as int < 0x1_0000_0000_0000
    ensures InIsize(step as int * ticks as int)
  {
    var a, b := step as int, ticks as int;
    if a >= 0 && b >= 0 {
      MulBound(a, b, 0xFFFF_FFFF_FFFF, 0x8000);
    } else if a >= 0 {
      MulBound(a, -b, 0xFFFF_FFFF_FFFF, 0x8000);
      assert a * b == -(a * -b);
    } else if b >= 0 {
      MulBound(-a, b, 0xFFFF_FFFF_FFFF, 0x8000);
      assert a * b == -(-a * b);
    } else {
      MulBound(-a, -b, 0xFFFF_FFFF_FFFF, 0x8000);
      assert a * b == -a * -b;
    }
  }

  /** Product of bounded naturals is bounded by the product of the bounds. */
  lemma MulBound(a: int, b: int, ma: int, mb: int)
    requires 0 <= a <= ma && 0 <= b <= mb
    ensures 0 <= a * b <= ma * mb
  {
    assert a * b <= ma * b;
    assert ma * b <= ma * mb;
  }
}

=== FILE: prelude.dfy ===
/** Small shared datatypes. */
module Prelude {

  /** An optional value, as Rust's `Option`. */
  datatype Option<+T> = None | Some(value: T)
}

=== FILE: session.dfy ===
/**
 A sequence of events delivered one at a time to one instance. Between
 events the host holds the record it last accepted: a handler's stored
 record replaces it only when the host answered the store request with
 success. The title on display changes only when the host accepts a title
 request: it is then the last title requested, and a refused request leaves
 the old title up.
 */
module Session {
  import opened Prelude
  import opened Ints
  import opened Decimal
  import opened Settings
  import opened Instance
  import opened Actions
  import Counter

  /** One delivered event and how the host answers its requests. */
  datatype Step = Step(event: Event, host: Host)

  /** The record the host holds after a session, and every request made. */
  datatype Trace = Trace(settings: CounterSettings, effects: seq<Effect>)

  /** Some request in `es` asks the host to store a record. */
  predicate Stores(es: seq<Effect>) {
    exists i :: 0 <= i < |es| && es[i].SetSettings?
  }

  /** Some request in `es` asks the host to show a title text. */
  predicate Titles(es: seq<Effect>) {
    exists i :: 0 <= i < |es| && es[i].SetTitle? && es[i].title.Some?
  }

  /** Some request in `es` asks the host to show the text `t`. */
  predicate Requested(es: seq<Effect>, t: string) {
    exists i :: 0 <= i < |es| && es[i].SetTitle? && es[i].title == Some(t)
  }

  /** A request in `es[1..]` is a request in `es`. */
  lemma TailRequests(es: seq<Effect>, t: string)
    requires es != []
    ensures Stores(es[1..]) ==> Stores(es)
    ensures Titles(es[1..]) ==> Titles(es)
    ensures Requested(es[1..], t) ==> Requested(es, t)
    ensures Stores(es) && !Stores(es[1..]) ==> es[0].SetSettings?
    ensures Titles(es) && !Titles(es[1..]) ==> es[0].SetTitle? && es[0].title.Some?
  {
    if Stores(es[1..]) {
      var j :| 0 <= j < |es[1..]| && es[1..][j].SetSettings?;
      assert es[j + 1].SetSettings?;
    }
    if Titles(es[1..]) {
      var j :| 0 <= j < |es[1..]| && es[1..][j].SetTitle? && es[1..][j].title.Some?;
      assert es[j + 1] == es[1..][j];
    }
    if Requested(es[1..], t) {
      var j :| 0 <= j < |es[1..]| && es[1..][j].SetTitle? && es[1..][j].title == Some(t);
      assert es[j + 1] == es[1..][j];
    }
    if Stores(es) && !es[0].SetSettings? {
      var i :| 0 <= i < |es| && es[i].SetSettings?;
      assert es[1..][i - 1] == es[i];
    }
    if Titles(es) && !(es[0].SetTitle? && es[0].title.Some?) {
      var i :| 0 <= i < |es| && es[i].SetTitle? && es[i].title.Some?;
      assert es[1..][i - 1] == es[i];
    }
  }

  /** The last record in `es` the host was asked to store, else `held`. */
  function LastStored(es: seq<Effect>, held: CounterSettings): (r: CounterSettings)
    ensures r == held || SetSettings(r) in es
    ensures (forall i :: 0 <= i < |es| ==> !es[i].SetSettings?) ==> r == held
    ensures Stores(es) ==> SetSettings(r) in es
    decreases |es|
  {
    if es == [] then held
    else
      var r := LastStored(es[1..], if es[0].SetSettings? then es[0].settings else held);
      TailRequests(es, "");
      assert Stores(es) && !Stores(es[1..]) ==> es[0] == SetSettings(r);
      r
  }

  /** The last title text in `es` the host was asked to show, else `shown`. */
  function LastTitle(es: seq<Effect>, shown: string): (r: string)
    ensures r == shown || Requested(es, r)
    ensures Titles(es) ==> Requested(es, r)
    decreases |es|
  {
    if es == [] then shown
    else
      var r := LastTitle(es[1..], if es[0].SetTitle? && es[0].title.Some? then es[0].title.value else shown);
      TailRequests(es, r);
      assert Titles(es) && !Titles(es[1..]) ==> es[0].title == Some(r);
      r
  }

  /**
   The record the host holds after one handler ran on `s`: it changes only
   when the host accepted the store, and then to the last record the handler
   asked it to store.
   */
  function After(s: CounterSettings, host: Host, out: Outcome): (r: CounterSettings)
    ensures out.Panic? || host.settingsReply.Err? ==> r == s
    ensures r == s || SetSettings(r) in Requests(out)
    ensures out.Done? && host.settingsReply.Ok? && Stores(out.run.effects) ==> SetSettings(r) in out.run.effects
  {
    match out
    case Panic => s
    case Done(run) => if host.settingsReply.Ok? then LastStored(run.effects, s) else s
  }

  /**
   The title on display after one handler ran, given the title `shown`
   before: the host displays the requested title only when it answers the
   title request with success, so a panic or a refused request leaves the old
   title up.
   */
  function Shown(shown: string, host: Host, out: Outcome): (r: string)
    ensures out.Panic? || host.titleReply.Err? ==> r == shown
    ensures r == shown || Requested(Requests(out), r)
    ensures out.Done? && host.titleReply.Ok? && Titles(out.run.effects) ==> Requested(out.run.effects, r)
  {
    if host.titleReply.Ok? then LastTitle(Requests(out), shown) else shown
  }

  function Requests(out: Outcome): seq<Effect> {
    match out
    case Panic => []
    case Done(run) => run.effects
  }

  /**
   Delivers `steps` in order to an instance holding `s`. The record held at
   the end is the starting one or one some handler asked the host to store.
   */
  function Replay(v: Variant, d: Defaults, s: CounterSettings, steps: seq<Step>): (t: Trace)
    ensures t.settings == s || SetSettings(t.settings) in t.effects
    decreases |steps|
  {
    if steps == [] then Trace(s, [])
    else
      var out := Handle(v, steps[0].event, d, s, steps[0].host);
      var rest := Replay(v, d, After(s, steps[0].host, out), steps[1..]);
      Trace(rest.settings, Requests(out) + rest.effects)
  }

  /**
   The title on display after delivering `steps` to an instance holding `s`
   and showing `shown`. It differs from `shown` only if the host answered
   some title request with success, and then it is a title some handler
   requested during the session.
   */
  function Displayed(v: Variant, d: Defaults, s: CounterSettings, shown: string, steps: seq<Step>): (r: string)
    ensures r == shown || exists i :: 0 <= i < |steps| && steps[i].host.titleReply.Ok?
    ensures r == shown || Requested(Replay(v, d, s, steps).effects, r)
    decreases |steps|
  {
    if steps == [] then shown
    else
      var out := Handle(v, steps[0].event, d, s, steps[0].host);
      var s' := After(s, steps[0].host, out);
      var shown' := Shown(shown, steps[0].host, out);
      var r := Displayed(v, d, s', shown', steps[1..]);
      assert r != shown && !steps[0].host.titleReply.Ok? ==>
        exists i :: 1 <= i < |steps| && steps[i].host.titleReply.Ok? by {
        if r != shown && !steps[0].host.titleReply.Ok? {
          var j :| 0 <= j < |steps[1..]| && steps[1..][j].host.titleReply.Ok?;
          assert steps[j + 1].host.titleReply.Ok?;
        }
      }
      assert r == shown || Requested(Replay(v, d, s, steps).effects, r) by {
        var a, b := Requests(out), Replay(v, d, s', steps[1..]).effects;
        assert Replay(v, d, s, steps).effects == a + b;
        if r != shown {
          if r == shown' {
            var j :| 0 <= j < |a| && a[j].SetTitle? && a[j].title == Some(r);
            assert (a + b)[j] == a[j];
          } else {
            var j :| 0 <= j < |b| && b[j].SetTitle? && b[j].title == Some(r);
            assert (a + b)[|a| + j] == b[j];
          }
        }
      }
      r
  }

  lemma {:induction false} LastTitleAppend(a: seq<Effect>, b: seq<Effect>, shown: string)
    ensures LastTitle(a + b, shown) == LastTitle(b, LastTitle(a, shown))
    decreases |a|
  {
    if a == [] {
      assert a + b == b;
    } else {
      assert (a + b)[0] == a[0];
      assert (a + b)[1..] == a[1..] + b;
      LastTitleAppend(a[1..], b, if a[0].SetTitle? && a[0].title.Some? then a[0].title.value else shown);
    }
  }

  /**
   After a store request and then a title request, the record last stored is
   the one in the store request and the title last shown is the requested one;
   after a store request alone, the title is whatever was shown before.
   */
  lemma WriteThroughHeld(held: CounterSettings, shown: string, es: seq<Effect>)
    requires 1 <= |es| <= 2 && es[0].SetSettings?
    requires |es| == 2 ==> es[1].SetTitle? && es[1].title.Some?
    ensures LastStored(es, held) == es[0].settings
    ensures LastTitle(es, shown) == if |es| == 2 then es[1].title.value else shown
  {
    var x := es[0].settings;
    assert LastStored(es, held) == LastStored(es[1..], x);
    assert LastTitle(es, shown) == LastTitle(es[1..], shown);
    if |es| == 2 {
      assert es[1..][0] == es[1];
      assert es[1..][1..] == [];
      assert LastStored(es[1..], x) == LastStored(es[1..][1..], x);
      assert LastTitle(es[1..], shown) == LastTitle(es[1..][1..], es[1].title.value);
    } else {
      assert es[1..] == [];
    }
  }

  /**
   One handler that calls `increment` keeps the title requested and the held
   record in step: if the last title requested named the held value before,
   it names the held value after, whether the host accepted the store, refused
   it or the handler panicked. The title on display follows when the host
   accepts the title request; when it accepts the store but refuses the title,
   the old title stays up. The step held does not change.
   */
  lemma IncrementKeepsTitle(v: Variant, e: Event, d: Defaults, s: CounterSettings, host: Host)
    requires Increments(v, e)
    ensures var out := Handle(v, e, d, s, host);
      && LastTitle(Requests(out), Show(s.value as int)) == Show(After(s, host, out).value as int)
      && (host.titleReply.Ok? ==> Shown(Show(s.value as int), host, out) == Show(After(s, host, out).value as int))
      && (host.titleReply.Err? ==> Shown(Show(s.value as int), host, out) == Show(s.value as int))
      && After(s, host, out).step == s.step
  {
    var out := Handle(v, e, d, s, host);
    if out.Done? {
      var es := out.run.effects;
      WriteThroughHeld(s, Show(s.value as int), es);
      Counter.WriteThroughAgrees(s, es[0].settings.value as int, host, out.run);
    }
  }

  /**
   The last title requested always names the held value: across any session
   of events whose handlers call `increment`, with any host answers and any
   overflow panics, the last title requested is the decimal text of the record
   the host ends up holding, provided it was so at the start; and the step
   never changes.
   */
  lemma {:induction false} TitleTracksValue(v: Variant, d: Defaults, s: CounterSettings, steps: seq<Step>)
    requires forall i :: 0 <= i < |steps| ==> Increments(v, steps[i].event)
    ensures var t := Replay(v, d, s, steps);
      LastTitle(t.effects, Show(s.value as int)) == Show(t.settings.value as int) && t.settings.step == s.step
    decreases |steps|
  {
    if steps != [] {
      var out := Handle(v, steps[0].event, d, s, steps[0].host);
      var s' := After(s, steps[0].host, out);
      IncrementKeepsTitle(v, steps[0].event, d, s, steps[0].host);
      TitleTracksValue(v, d, s', steps[1..]);
      LastTitleAppend(Requests(out), Replay(v, d, s', steps[1..]).effects, Show(s.value as int));
    }
  }

  /**
   The title on display always shows the held value, across any session of
   events whose handlers call `increment` in which the host accepts every
   title request (stores may still be refused and handlers may panic),
   provided it did so at the start.
   */
  lemma {:induction false} DisplayTracksValue(v: Variant, d: Defaults, s: CounterSettings, steps: seq<Step>)
    requires forall i :: 0 <= i < |steps| ==> Increments(v, steps[i].event)
    requires forall i :: 0 <= i < |steps| ==> steps[i].host.titleReply.Ok?
    ensures Displayed(v, d, s, Show(s.value as int), steps) == Show(Replay(v, d, s, steps).settings.value as int)
    decreases |steps|
  {
    if steps != [] {
      var out := Handle(v, steps[0].event, d, s, steps[0].host);
      var s' := After(s, steps[0].host, out);
      IncrementKeepsTitle(v, steps[0].event, d, s, steps[0].host);
      DisplayTracksValue(v, d, s', steps[1..]);
    }
  }

  /**
   A refused title request leaves the display stale: when the host accepts
   the store of a changed value but refuses the title, the handler fails and
   the title on display no longer names the held value.
   */
  lemma RefusedTitleLeavesStale(v: Variant, e: Event, d: Defaults, s: CounterSettings, message: string)
    requires Increments(v, e)
    requires Handle(v, e, d, s, Host(Ok, Err(message))).Done?
    requires After(s, Host(Ok, Err(message)), Handle(v, e, d, s, Host(Ok, Err(message)))).value != s.value
    ensures var host := Host(Ok, Err(message));
      var out := Handle(v, e, d, s, host);
      && out.run.result == Err(message)
      && Shown(Show(s.value as int), host, out) != Show(After(s, host, out).value as int)
  {
    var host := Host(Ok, Err(message));
    var out := Handle(v, e, d, s, host);
    IncrementKeepsTitle(v, e, d, s, host);
    ShowInjective(s.value as int, After(s, host, out).value as int);
  }

  /** `n` key presses, each answered with success. */
  function Presses(n: nat): (steps: seq<Step>)
    ensures |steps| == n
    ensures forall i :: 0 <= i < n ==> steps[i] == Step(KeyUp, Host(Ok, Ok))
  {
    if n == 0 then [] else [Step(KeyUp, Host(Ok, Ok))] + Presses(n - 1)
  }

  /** One successful key press on `s` holds `s` one step on, after a store and a title request. */
  lemma OnePress(v: Variant, d: Defaults, s: CounterSettings)
    requires InIsize(s.value as int + s.step as int)
    ensures var out := Handle(v, KeyUp, d, s, Host(Ok, Ok));
      && |Requests(out)| == 2
      && After(s, Host(Ok, Ok), out) == CounterSettings(s.step, (s.value as int + s.step as int) as isize)
  {
    var out := Handle(v, KeyUp, d, s, Host(Ok, Ok));
    WriteThroughHeld(s, "", out.run.effects);
  }

  /**
   Pressing `n` times adds `n` steps, on either action type, as long as the
   final value fits: every intermediate value lies between the first and the
   last, so none overflows. Each press stores and shows once.
   */
  lemma {:induction false} RepeatedKeyUp(v: Variant, d: Defaults, s: CounterSettings, n: nat)
    requires InIsize(s.value as int + n * s.step as int)
    ensures var t := Replay(v, d, s, Presses(n));
      && t.settings.step == s.step
      && t.settings.value as int == s.value as int + n * s.step as int
      && |t.effects| == 2 * n
    decreases n
  {
    if n > 0 {
      var step := s.step as int;
      var value := s.value as int;
      BetweenEnds(value, step, n);
      OnePress(v, d, s);
      var s' := CounterSettings(s.step, (value + step) as isize);
      assert Presses(n)[1..] == Presses(n - 1);
      RepeatedKeyUp(v, d, s', n - 1);
    }
  }

  /** The value after one press lies between the start and the end of `n >= 1` presses. */
  lemma BetweenEnds(value: int, step: int, n: nat)
    requires 1 <= n && InIsize(value) && InIsize(value + n * step)
    ensures InIsize(value + step)
    ensures (value + step) + (n - 1) * step == value + n * step
  {
    if step >= 0 {
      assert n * step >= step;
    } else {
      assert n * -step >= -step;
    }
  }

  /** Persisted, step 1, value 0: one press shows "1". */
  lemma ScenarioFirstPress(d: Defaults)
    ensures Replay(Persisted, d, DEFAULT, [Step(KeyUp, Host(Ok, Ok))])
            == Trace(CounterSettings(1, 1), [SetSettings(CounterSettings(1, 1)), SetTitle(Some("1"), None)])
  {
    var s, host := CounterSettings(1, 0), Host(Ok, Ok);
    var steps := [Step(KeyUp, host)];
    var out := Handle(Persisted, KeyUp, d, s, host);
    WriteThroughHeld(s, "", out.run.effects);
    assert Show(1) == "1";
    assert out.run.effects == [SetSettings(CounterSettings(1, 1)), SetTitle(Some("1"), None)];
    assert After(s, host, out) == CounterSettings(1, 1);
    assert steps[1..] == [];
    assert Replay(Persisted, d, s, steps)
           == Trace(Replay(Persisted, d, CounterSettings(1, 1), []).settings,
                    out.run.effects + Replay(Persisted, d, CounterSettings(1, 1), []).effects);
  }

  /** Persisted, step 5, value 10: three ticks back shows "-5". */
  lemma ScenarioRotateBack(d: Defaults)
    ensures Replay(Persisted, d, CounterSettings(5, 10), [Step(DialRotate(-3, false), Host(Ok, Ok))])
            == Trace(CounterSettings(5, -5), [SetSettings(CounterSettings(5, -5)), SetTitle(Some("-5"), None)])
  {
    var out := Handle(Persisted, DialRotate(-3, false), d, CounterSettings(5, 10), Host(Ok, Ok));
    assert Show(-5) == "-5";
    WriteThroughHeld(CounterSettings(5, 10), "", out.run.effects);
  }

  /** Temporary, value 7: appearing resets to 0 and shows "0", then a press with step 2 holds 2 and shows "2". */
  lemma ScenarioAppearThenPress(d: Defaults)
    ensures Replay(Temporary, d, CounterSettings(2, 7), [Step(WillAppear, Host(Ok, Ok)), Step(KeyUp, Host(Ok, Ok))])
            == Trace(CounterSettings(2, 2),
                     [SetSettings(CounterSettings(2, 0)), SetTitle(Some("0"), None),
                      SetSettings(CounterSettings(2, 2)), SetTitle(Some("2"), None)])
  {
    var s := CounterSettings(2, 7);
    var out := Handle(Temporary, WillAppear, d, s, Host(Ok, Ok));
    WriteThroughHeld(s, "", out.run.effects);
    var steps := [Step(WillAppear, Host(Ok, Ok)), Step(KeyUp, Host(Ok, Ok))];
    assert steps[1..] == [Step(KeyUp, Host(Ok, Ok))];
    OnePress(Temporary, d, CounterSettings(2, 0));
    var press := Handle(Temporary, KeyUp, d, CounterSettings(2, 0), Host(Ok, Ok));
    WriteThroughHeld(CounterSettings(2, 0), "", press.run.effects);
    assert Show(0) == "0";
    assert Show(2) == "2";
  }

  /** Persisted, step 0, value 3: a rotation keeps 3 and still stores and shows it. */
  lemma ScenarioZeroStep(d: Defaults)
    ensures Replay(Persisted, d, CounterSettings(0, 3), [Step(DialRotate(4, true), Host(Ok, Ok))])
            == Trace(CounterSettings(0, 3), [SetSettings(CounterSettings(0, 3)), SetTitle(Some("3"), None)])
  {
    var out := Handle(Persisted, DialRotate(4, true), d, CounterSettings(0, 3), Host(Ok, Ok));
    WriteThroughHeld(CounterSettings(0, 3), "", out.run.effects);
  }
}

=== FILE: settings.dfy ===
/**
 The per-instance record `CounterSettings { step, value }` and the way a
 stored record is read back: the struct carries a container-level serde
 default, so a field missing from the stored record, or the whole record
 missing, takes its value from `CounterSettings::default()`.
 */
module Settings {
  import opened Prelude
  import opened Ints

  datatype CounterSettings = CounterSettings(step: isize, value: isize)

  /** `CounterSettings::default()`. */
  const DEFAULT: CounterSettings := CounterSettings(1, 0)

  /** The fields a stored record carries; either may be absent. */
  datatype StoredFields = StoredFields(step: Option<isize>, value: Option<isize>)

  /** Reads a stored record (`None` when nothing was ever stored). */
  function Load(stored: Option<StoredFields>): (s: CounterSettings)
    ensures stored.Some? && stored.value.step.Some? ==> s.step == stored.value.step.value
    ensures stored.Some? && stored.value.value.Some? ==> s.value == stored.value.value.value
    ensures (stored.None? || stored.value.step.None?) ==> s.step == 1
    ensures (stored.None? || stored.value.value.None?) ==> s.value == 0
  {
    match stored
    case None => DEFAULT
    case Some(f) =>
      CounterSettings(
        match f.step case Some(x) => x case None => DEFAULT.step,
        match f.value case Some(x) => x case None => DEFAULT.value)
  }

  /** Writes a record with both fields present, so that it loads back as `s`. */
  function Save(s: CounterSettings): (f: StoredFields)
    ensures f.step.Some? && f.value.Some?
    ensures Load(Some(f)) == s
  {
    StoredFields(Some(s.step), Some(s.value))
  }

  /** A fresh instance, and a record with no fields, both read as step 1, value 0. */
  lemma AbsentIsDefault()
    ensures Load(None) == Load(Some(StoredFields(None, None))) == CounterSettings(1, 0)
  {
  }
}
